=== FILE: README.md ===
# Crypto ETL ingestion — a Dafny model

This project models the record-ingestion contract of a small crypto-price ETL
service. Raw price records come from a CSV feed and an HTTP feed. They are
validated and normalised into one canonical shape
(`symbol, price_usd, market_cap, timestamp, source`). They are then upserted
in one transaction into the `unified_crypto_data` table, which is unique on
the composite key `(symbol, timestamp, source)`. A source's resume point
(its *checkpoint*) is read from the metadata of the latest successful
`ETLRun`. A read endpoint filters the stored rows by symbol and paginates
them.

Modules (one per core source file, plus `Wrappers`):

- `Wrappers` (`wrappers.dfy`): `Option` and `Result`. They stand in for Python's `None` and its exceptions.
- `Models` (`models.dfy`): the row, the composite key, the physical table (`seq<Row>`) and the logical store (`map<Key, Quote>`) it represents, and the `ETLRun` record. `ETLRun` is built from the fields its callers use.
- `Schema` (`schema.dfy`): `UnifiedCryptoData` validation. The symbol is upper-cased, price and market cap must be non-negative, and the timestamp must parse.
- `Loader` (`loader.dfy`): `load_data`, the all-or-nothing bulk upsert. It is modelled on the logical store (`Load`) and on the physical table with primary-key ids (`LoadRows`). A lemma-carrying contract proves that the table version refines the store version.
- `Checkpoint` (`checkpoint.dfy`): `get_last_successful_checkpoint`.
- `Routes` (`routes.dfy`): the transform/load path of `run_etl_job` and the filter/pagination of `get_crypto_data`.

Modelling choices:

- Raw records reach validation with each field already of its declared type; pydantic's type coercion is outside the model.
- Instants are integers, so only their order matters. Timestamp and ISO-8601 parsing are function parameters (`string -> Option<Instant>`).
- Prices are `real`, because only the `>= 0` bound matters. Market caps are `nat`. Being stored as a string, the column keeps arbitrarily large values.
- The extractors' outputs are parameters of `RunEtlJob`. The table's row order is the order of the given sequence.
- A database failure other than a duplicate key is an input flag (`databaseFails`). The one failure the code itself provokes is a batch with two records sharing a composite key. PostgreSQL refuses such an `ON CONFLICT DO UPDATE` statement (`DuplicateKeyInBatch`), and the loader rolls back and re-raises.

In four places the model follows the code where a reader might expect otherwise:

- The code performs **no** intra-batch deduplication. A batch holding two valid records with the same key makes the whole load fail, and the store stays unchanged (`Loader.Load`, `Routes.RunEtlJob`).
- Only the single latest successful run is consulted. If it lacks the source's checkpoint, the result is `None`, even when an older successful run has one.
- An unparsable checkpoint string raises out of the lookup (`InvalidIsoFormat`) rather than meaning "full load".
- An empty symbol passes validation; only presence is checked.

## Model

| member | source | states |
|---|---|---|
| Models.StoreOfSpec | src/core/models.py:16-19 | on a table obeying the `(symbol, timestamp, source)` unique constraint, the store has exactly one entry per row, holds exactly the rows' keys, and maps each key to its row's price and market cap |
| Models.ConflictTargetIsUniqueConstraint | src/ingestion/loader.py:24-40 | the loader's conflict target names exactly the three columns of `uix_symbol_time_source`, and the columns overwritten on conflict are disjoint from them, so a key never changes once written |
| Schema.Upper | src/schemas/crypto.py:12-14 | upper-casing keeps the length, leaves no lower-case letter, maps each lower-case letter to its capital and keeps every other character |
| Schema.UpperIdempotent | src/schemas/crypto.py:12-14 | upper-casing an already upper-cased symbol leaves it unchanged |
| Schema.UpperFixedPoint | src/schemas/crypto.py:12-14 | a symbol is its own normal form exactly when it holds no lower-case letter |
| Schema.UpperExample | src/tests/test_api.py:27-40 | the tested example: the symbol "btc" is normalised to "BTC" |
| Schema.Normalize | src/schemas/crypto.py:5-14 | for raw fields that already have their declared types, a raw record is accepted iff all five fields are present, price >= 0 (so 0 is accepted), market cap >= 0 and the timestamp parses; the accepted record has the upper-cased symbol and the other fields unchanged; a missing symbol, a negative price and a negative market cap are each rejected |
| Schema.NormalizeIdempotent | src/schemas/crypto.py:5-14 | validating a validated record again (timestamp rendered as any string that parses back) returns the same record |
| Loader.Upsert | src/ingestion/loader.py:28-41 | for a batch with distinct keys, the result holds the old keys plus the batch keys; every batch key maps to its record's price and market cap; every other key keeps its old value |
| Loader.Load | src/ingestion/loader.py:6-56 | an empty batch returns 0 and changes nothing; success iff the batch is empty or has distinct keys and the database does not fail; on success it returns the batch length and stores every record's quote; on failure the store is exactly as before; keys outside the batch are never changed |
| Loader.BatchKeysCount | src/ingestion/loader.py:24-26 | a batch whose records have distinct composite keys touches as many keys as it has records |
| Loader.LoadIdempotent | src/ingestion/loader.py:7-11 | loading the same batch again after a successful load yields the same store, the same row count and the same returned count |
| Loader.LoadRowCount | src/ingestion/loader.py:31-41 | after a successful load the row count is the old count plus the number of batch keys that were not yet stored |
| Loader.LoadAllNew | src/tests/test_etl_service.py:88-96 | when every batch key is new, a successful load adds exactly one row per record |
| Loader.IndexOfKey | src/ingestion/loader.py:31-34 | finds the row holding a composite key, or reports that no row holds it |
| Loader.UpsertRow | src/ingestion/loader.py:29-41 | one record on the physical table keeps unique ids and unique keys, never changes an existing row's id or key, changes an existing row only in the `UpdatedOnConflict` columns (price and market cap) and only when it holds the record's key, and changes the represented store only at the record's key |
| Loader.UpsertRows | src/ingestion/loader.py:29-46 | the whole statement on the physical table keeps both constraints and existing ids, changes existing rows only in the `UpdatedOnConflict` columns, and represents the store `Upsert` computes |
| Loader.LoadRows | src/ingestion/loader.py:20-56 | `load_data` on the physical table returns what `Load` returns, represents the store `Load` computes, keeps the primary key and the unique constraint, and leaves the table untouched on failure |
| Checkpoint.LatestSuccessIndex | src/services/checkpoint_service.py:9-14 | finds a SUCCESS run that no other SUCCESS run ended after, and finds none exactly when no run succeeded |
| Checkpoint.LatestSuccessRun | src/services/checkpoint_service.py:9-14 | the consulted run is a latest-ending SUCCESS run of the history, and is absent iff no run succeeded |
| Checkpoint.CheckpointKeyInjective | src/services/checkpoint_service.py:18 | distinct sources use distinct metadata keys, so one source never reads another's checkpoint |
| Checkpoint.ReplaceZ | src/services/checkpoint_service.py:21 | the rewritten string holds no 'Z', is 5 characters longer per 'Z', and is the input itself when there is no 'Z' |
| Checkpoint.ReplaceZOne | src/services/checkpoint_service.py:21 | a 'Z' becomes the offset `+00:00` and every other character is kept |
| Checkpoint.ReplaceZConcat | src/services/checkpoint_service.py:21 | the rewrite works character by character, so it distributes over concatenation |
| Checkpoint.ReplaceZIdempotent | src/services/checkpoint_service.py:21 | rewriting an already rewritten string changes nothing |
| Checkpoint.LastSuccessfulCheckpoint | src/services/checkpoint_service.py:6-25 | with no SUCCESS run, or when no latest SUCCESS run stores a non-empty checkpoint for the source, the result is `None`; when some run succeeded and the latest one stores a checkpoint, the result is not `None`; otherwise it is the instant parsed from that run's stored string after the 'Z' rewrite, or an error when it does not parse |
| Checkpoint.SuccessesMembers | src/services/checkpoint_service.py:10-11 | the successful runs are exactly the history's runs whose status is SUCCESS |
| Checkpoint.SuccessesConcat | src/services/checkpoint_service.py:10-11 | filtering for SUCCESS distributes over concatenation, so the kept runs keep the history's order |
| Checkpoint.LatestIgnoresUnsuccessful | src/services/checkpoint_service.py:10-14 | the consulted run is the same whether or not the runs that did not succeed are removed from the history |
| Checkpoint.CheckpointIgnoresUnsuccessful | src/services/checkpoint_service.py:10-25 | every source's checkpoint over the whole history equals its checkpoint over the successful runs alone |
| Checkpoint.AppendUnsuccessfulRun | src/services/checkpoint_service.py:10-12 | appending a FAILURE (or RUNNING) run leaves every source's checkpoint unchanged |
| Checkpoint.CheckpointAfterSuccess | src/services/checkpoint_service.py:9-21 | after a SUCCESS run that ended later than every earlier success and stored a checkpoint for the source, the lookup returns that checkpoint's instant |
| Routes.ValidRecords | src/api/routes.py:84-90 | at most as many records as the input; a record is kept iff some raw record validates to it |
| Routes.ValidRecordsConcat | src/api/routes.py:85-90 | validating a concatenation gives the concatenation of the validated parts, in order |
| Routes.AllValidKept | src/api/routes.py:85-90 | when every raw record is valid, none is dropped |
| Routes.DropRejected | src/api/routes.py:86-90 | inserting a record that fails validation anywhere in the input leaves the validated records unchanged |
| Routes.RunEtlJob | src/api/routes.py:77-99 | `processed` is the number of raw records from both extractors; `inserted` is the number that passed validation, hence <= `processed`; the store is what loading the valid records gives; on a load failure (including two valid records sharing a key) the store is unchanged |
| Routes.EtlDropsRejected | src/api/routes.py:84-98 | a record failing validation never aborts the job: with it, the job reaches the same outcome, store and `inserted`, and only `processed` grows by one |
| Routes.EtlRerunIdempotent | src/api/routes.py:92-93 | re-running a successful job on the same extractor output leaves store and report unchanged |
| Routes.SymbolFilterCaseInsensitive | src/api/routes.py:31-32 | a symbol and its upper-cased form select the same filter |
| Routes.Matching | src/api/routes.py:28-32 | a row is matched iff it is in the table and passes the filter, and no row is matched more often than the table holds it |
| Routes.MatchingOne | src/api/routes.py:28-32 | a single row is matched once when it passes the filter and dropped otherwise |
| Routes.MatchingConcat | src/api/routes.py:28-32 | matching distributes over concatenation, so matches keep the table's order and multiplicity |
| Routes.MatchingAll | src/api/routes.py:28-32 | with no filter every row matches, in table order |
| Routes.Page | src/api/routes.py:36 | the page has length min(limit, max(0, matched - offset)) and its i-th row is the (offset + i)-th match |
| Routes.GetCryptoData | src/api/routes.py:17-52 | the request succeeds iff 1 <= limit <= 100 and offset >= 0 (defaults 10 and 0); the metadata counts every match independently of offset and limit and echoes both; the page is the matched rows from `offset`, of length min(limit, max(0, total - offset)); with a symbol every returned row has the upper-cased symbol; every returned row is a table row; with no symbol (or an empty one) the total is the table's row count |
| Routes.SymbolQueryCaseInsensitive | src/api/routes.py:30-36 | a query for a symbol and a query for its upper-cased form return the same response |
| Routes.PageConcat | src/api/routes.py:36 | a page followed by the page right after it is one longer page |
| Routes.PagesTile | src/api/routes.py:21-36 | when the database returns the rows in the same order to all three queries (the query has no ORDER BY), two consecutive requests with the same limit together return what one request with twice the limit returns |

## Left out

- Extractors (`src/ingestion/extractors.py`): pandas CSV reading and HTTP calls that turn every error into an empty list. Their outputs are parameters of `RunEtlJob`.
- `health_check` (`src/api/routes.py:55-74`): a database connectivity probe and a raw SQL `MAX(timestamp)`.
- The per-request id (a random UUID) and the measured latency in `get_crypto_data`: nondeterministic, so they are not part of `PageMetadata`.
- Engine, session and application start-up (`src/core/database.py`, `src/main.py`), environment loading (`src/core/config.py`) and the random CSV generator (`generate_csv.py`): infrastructure without logic to model.
- Full datetime and ISO-8601 parsing: abstract parser parameters. Only the 'Z' rewrite is modelled as a string function.
- Float semantics of `price_usd` (NaN, infinities, rounding): prices are reals.
- The row order of an unordered query: the table's order is the given sequence.
- Routes.PagesTile: holds only when every request sees the rows in one order. `get_crypto_data` has no ORDER BY, and the database may order each OFFSET/LIMIT query differently, so real pages can overlap or skip rows.
- The ETL orchestrator `run_full_etl_cycle`, `fetch_coincap_data`, run creation and finalisation, checkpoint writing and the run-lifecycle state machine. They live in `src/services/etl_service.py`, which is not part of this model. `ETLRun` is therefore reconstructed from its uses only.
- Intra-batch deduplication: `run_etl_job` and `load_data` have none; a duplicated key fails the load.
- The `/stats` endpoint and the `"total"` response key exercised by the endpoint tests: neither exists in the route shown.
- Concurrency between cycles: the code has none.
- The id sequence: new rows receive fresh ids (`nextId + i` for the i-th record offered). Sequence values consumed by conflicting or rolled-back rows are not tracked.
- Schema.Upper: models ASCII case mapping only. Python's `str.upper` also maps non-ASCII letters, and some of those change the length (e.g. 'ß' becomes "SS").
- Schema.Normalize: reports only the first failing field, in declaration order. Pydantic collects every failing field. The caller discards the error either way. Raw fields also arrive already typed (`Option<string>`, `Option<real>`, `Option<int>`). Pydantic's lax-mode conversions are not modelled: integral floats and numeric strings becoming `int`. Nor is its rejection of mistyped values, such as a fractional market cap from a decimal CSV column or a non-string symbol or source like the NaN of a blank cell. So the acceptance iff holds only for well-typed fields.
- Checkpoint.LatestSuccessIndex: requires every SUCCESS run to have an end time, because PostgreSQL would sort a NULL first in descending order. Among SUCCESS runs ending at the same instant, the earliest in the history is taken, although the database may return any of them.
- Checkpoint.LastSuccessfulCheckpoint: metadata values are strings. A non-string JSON value under the checkpoint key is not modelled.
- Routes.GetCryptoData: reports one out-of-range parameter (limit first). FastAPI reports both in one 422 response.

=== FILE: checkpoint.dfy ===
/**
  `get_last_successful_checkpoint`: the resume point of one source, read from
  the metadata of the latest successful run in the run history.
 */
module Checkpoint {
  import opened Wrappers
  import opened Models

  /** ISO-8601 parsing (`datetime.fromisoformat`) is left abstract. */
  type IsoParser = string -> Option<Instant>

  /** `fromisoformat` rejected the stored string; the error propagates to the caller. */
  datatype CheckpointError = InvalidIsoFormat(text: string)

  /** Every successful run has an end time, so runs can be ordered by it. */
  predicate EndTimesKnown(history: seq<ETLRun>) {
    forall i :: 0 <= i < |history| && history[i].status == Succeeded ==> history[i].endTime.Some?
  }

  /** `history[i]` is a successful run that no other successful run ended after. */
  predicate IsLatestSuccess(history: seq<ETLRun>, i: int)
    requires EndTimesKnown(history)
  {
    && 0 <= i < |history|
    && history[i].status == Succeeded
    && forall j :: 0 <= j < |history| && history[j].status == Succeeded ==>
         history[j].endTime.value <= history[i].endTime.value
  }

  /**
    Position of the successful run with the greatest end time, as `ORDER BY
    end_time DESC LIMIT 1` over the successful runs finds it; among runs that
    end at the same instant the earliest in the history is taken.
   */
  function LatestSuccessIndex(history: seq<ETLRun>): (r: Option<nat>)
    requires EndTimesKnown(history)
    ensures r.None? <==> forall i :: 0 <= i < |history| ==> history[i].status != Succeeded
    ensures r.Some? ==> IsLatestSuccess(history, r.value)
  {
    if |history| == 0 then None
    else
      var n := |history| - 1;
      var init := history[..n];
      assert forall i :: 0 <= i < n ==> init[i] == history[i];
      var prev := LatestSuccessIndex(init);
      if history[n].status != Succeeded then prev
      else
        match prev
        case None => Some(n)
        case Some(p) => if history[n].endTime.value > history[p].endTime.value then Some(n) else Some(p)
  }

  /** The run `LatestSuccessIndex` points at. */
  function LatestSuccessRun(history: seq<ETLRun>): (r: Option<ETLRun>)
    requires EndTimesKnown(history)
    ensures r.None? <==> forall i :: 0 <= i < |history| ==> history[i].status != Succeeded
    ensures r.Some? ==> exists i :: IsLatestSuccess(history, i) && history[i] == r.value
  {
    match LatestSuccessIndex(history)
    case None => None
    case Some(i) => Some(history[i])
  }

  /** The metadata key a source's checkpoint is stored under. */
  function CheckpointKey(source: string): string {
    source + "_checkpoint"
  }

  /** Distinct sources use distinct keys, so no source ever reads another source's checkpoint. */
  lemma CheckpointKeyInjective(a: string, b: string)
    ensures CheckpointKey(a) == CheckpointKey(b) ==> a == b
  {
    if CheckpointKey(a) == CheckpointKey(b) {
      assert |a| == |b|;
      assert a == CheckpointKey(a)[..|a|];
      assert b == CheckpointKey(b)[..|b|];
    }
  }

  /** The non-empty checkpoint string a run stores for a source, if any. */
  function StoredCheckpoint(run: ETLRun, source: string): Option<string> {
    match run.metadata
    case None => None
    case Some(md) =>
      var key := CheckpointKey(source);
      if key in md && md[key] != "" then Some(md[key]) else None
  }

  /** Number of occurrences of 'Z' in a string. */
  function CountZ(s: string): nat {
    if |s| == 0 then 0 else (if s[0] == 'Z' then 1 else 0) + CountZ(s[1..])
  }

  /** `str.replace('Z', '+00:00')`: every 'Z' becomes the explicit UTC offset. */
  function ReplaceZ(s: string): (r: string)
    ensures forall i :: 0 <= i < |r| ==> r[i] != 'Z'
    ensures |r| == |s| + 5 * CountZ(s)
    ensures CountZ(s) == 0 ==> r == s
  {
    if |s| == 0 then []
    else (if s[0] == 'Z' then "+00:00" else [s[0]]) + ReplaceZ(s[1..])
  }

  /** A single character: a 'Z' becomes the explicit UTC offset "+00:00", any other character stays. */
  lemma ReplaceZOne(c: char)
    ensures ReplaceZ([c]) == if c == 'Z' then "+00:00" else [c]
  {
    assert [c][1..] == [];
  }

  /** Rewriting distributes over concatenation. */
  lemma {:induction false} ReplaceZConcat(a: string, b: string)
    ensures ReplaceZ(a + b) == ReplaceZ(a) + ReplaceZ(b)
  {
    if |a| > 0 {
      assert (a + b)[1..] == a[1..] + b;
      ReplaceZConcat(a[1..], b);
    } else {
      assert a + b == b;
    }
  }

  /** Rewriting twice is rewriting once: the result holds no 'Z' left to rewrite. */
  lemma ReplaceZIdempotent(s: string)
    ensures ReplaceZ(ReplaceZ(s)) == ReplaceZ(s)
  {
    NoZCount(ReplaceZ(s));
  }

  /** A string without 'Z' has a zero count. */
  lemma {:induction false} NoZCount(s: string)
    requires forall i :: 0 <= i < |s| ==> s[i] != 'Z'
    ensures CountZ(s) == 0
  {
    if |s| > 0 {
      NoZCount(s[1..]);
    }
  }

  /**
    `get_last_successful_checkpoint`. Only the latest successful run is
    consulted; `None` means "do a full load".
   */
  function LastSuccessfulCheckpoint(history: seq<ETLRun>, source: string, parseIso: IsoParser)
    : (r: Result<Option<Instant>, CheckpointError>)
    requires EndTimesKnown(history)
    ensures (forall i :: 0 <= i < |history| ==> history[i].status != Succeeded) ==> r == Success(None)
    ensures (forall i :: IsLatestSuccess(history, i) ==> StoredCheckpoint(history[i], source).None?) ==> r == Success(None)
    ensures (exists i :: 0 <= i < |history| && history[i].status == Succeeded)
         && (forall i :: IsLatestSuccess(history, i) ==> StoredCheckpoint(history[i], source).Some?)
         ==> r != Success(None)
    ensures r != Success(None) ==>
      exists i :: IsLatestSuccess(history, i) && StoredCheckpoint(history[i], source).Some?
        && var text := StoredCheckpoint(history[i], source).value;
           match parseIso(ReplaceZ(text))
           case Some(t) => r == Success(Some(t))
           case None => r == Failure(InvalidIsoFormat(text))
  {
    match LatestSuccessRun(history)
    case None => Success(None)
    case Some(run) =>
      match StoredCheckpoint(run, source)
      case None => Success(None)
      case Some(text) =>
        match parseIso(ReplaceZ(text))
        case None => Failure(InvalidIsoFormat(text))
        case Some(t) => Success(Some(t))
  }

  /** The successful runs of a history, in order. */
  function Successes(history: seq<ETLRun>): (r: seq<ETLRun>)
    ensures |r| <= |history|
    ensures forall i :: 0 <= i < |r| ==> r[i].status == Succeeded
    ensures EndTimesKnown(history) ==> EndTimesKnown(r)
  {
    if |history| == 0 then []
    else
      var n := |history| - 1;
      var init := history[..n];
      assert EndTimesKnown(history) ==> EndTimesKnown(init) by {
        assert forall i :: 0 <= i < n ==> init[i] == history[i];
      }
      Successes(init) + (if history[n].status == Succeeded then [history[n]] else [])
  }

  /** A run is kept exactly when it is in the history and succeeded. */
  lemma {:induction false} SuccessesMembers(history: seq<ETLRun>)
    ensures forall x :: x in Successes(history) <==> x in history && x.status == Succeeded
  {
    if |history| > 0 {
      var n := |history| - 1;
      SuccessesMembers(history[..n]);
      assert history == history[..n] + [history[n]];
    }
  }

  /** Filtering distributes over concatenation, so the kept runs stay in history order. */
  lemma {:induction false} SuccessesConcat(a: seq<ETLRun>, b: seq<ETLRun>)
    ensures Successes(a + b) == Successes(a) + Successes(b)
  {
    if |b| > 0 {
      var n := |b| - 1;
      assert (a + b)[..|a + b| - 1] == a + b[..n];
      SuccessesConcat(a, b[..n]);
    } else {
      assert a + b == a;
    }
  }

  /** Dropping every run that did not succeed leaves the consulted run the same. */
  lemma {:induction false} LatestIgnoresUnsuccessful(history: seq<ETLRun>)
    requires EndTimesKnown(history)
    ensures LatestSuccessRun(Successes(history)) == LatestSuccessRun(history)
  {
    if |history| > 0 {
      var n := |history| - 1;
      var init := history[..n];
      assert forall i :: 0 <= i < n ==> init[i] == history[i];
      var si := Successes(init);
      var s := Successes(history);
      LatestIgnoresUnsuccessful(init);
      var prev := LatestSuccessIndex(init);
      var prevS := LatestSuccessIndex(si);
      assert prev.None? <==> prevS.None?;
      if prev.Some? {
        assert si[prevS.value] == init[prev.value];
      }
      if history[n].status == Succeeded {
        assert s[..|s| - 1] == si;
        assert s[|s| - 1] == history[n];
        if prev.Some? {
          assert s[prevS.value] == si[prevS.value];
          assert history[prev.value] == init[prev.value];
        }
      } else {
        assert s == si;
      }
    }
  }

  /**
    Runs that did not succeed never influence any source's checkpoint: the
    lookup over the whole history equals the lookup over its successes.
   */
  lemma CheckpointIgnoresUnsuccessful(history: seq<ETLRun>, source: string, parseIso: IsoParser)
    requires EndTimesKnown(history)
    ensures LastSuccessfulCheckpoint(Successes(history), source, parseIso)
         == LastSuccessfulCheckpoint(history, source, parseIso)
  {
    LatestIgnoresUnsuccessful(history);
  }

  /** Appending a failed (or still running) run leaves every checkpoint as it was. */
  lemma AppendUnsuccessfulRun(history: seq<ETLRun>, run: ETLRun, source: string, parseIso: IsoParser)
    requires EndTimesKnown(history)
    requires run.status != Succeeded
    ensures EndTimesKnown(history + [run])
    ensures LastSuccessfulCheckpoint(history + [run], source, parseIso)
         == LastSuccessfulCheckpoint(history, source, parseIso)
  {
    var h := history + [run];
    assert h[..|h| - 1] == history;
  }

  /**
    After a successful run that ended later than every earlier success and
    stored checkpoint `text` for the source, the lookup returns the instant
    `text` denotes.
   */
  lemma CheckpointAfterSuccess(history: seq<ETLRun>, run: ETLRun, source: string, parseIso: IsoParser, t: Instant)
    requires EndTimesKnown(history)
    requires run.status == Succeeded && run.endTime.Some?
    requires forall i :: 0 <= i < |history| && history[i].status == Succeeded ==>
      history[i].endTime.value < run.endTime.value
    requires StoredCheckpoint(run, source).Some?
    requires parseIso(ReplaceZ(StoredCheckpoint(run, source).value)) == Some(t)
    ensures EndTimesKnown(history + [run])
    ensures LastSuccessfulCheckpoint(history + [run], source, parseIso) == Success(Some(t))
  {
    var h := history + [run];
    assert h[..|h| - 1] == history;
    var prev := LatestSuccessRun(history);
    if prev.Some? {
      var i :| IsLatestSuccess(history, i) && history[i] == prev.value;
    }
  }
}

=== FILE: loader.dfy ===
/**
  The idempotent bulk upsert `load_data`: one `INSERT ... ON CONFLICT
  (symbol, source, timestamp) DO UPDATE SET price_usd, market_cap` statement
  in one transaction, rolled back on any failure.
 */
module Loader {
  import opened Wrappers
  import opened Models

  /** Why the upsert statement failed; either way the transaction is rolled back. */
  datatype LoadError =
    /** Two records of the batch share a composite key, so `ON CONFLICT DO UPDATE` would touch one row twice. */
    | DuplicateKeyInBatch
    /** The database itself failed (connection lost, other constraint, ...). */
    | DatabaseFailure

  /** The store after the call, and either the processed count or the raised error. */
  datatype LoadOutcome = LoadOutcome(store: Store, result: Result<nat, LoadError>)

  /** The composite keys a batch touches. */
  function BatchKeys(batch: seq<CryptoRecord>): set<Key> {
    set i | 0 <= i < |batch| :: batch[i].KeyOf()
  }

  /** No two records of the batch share a composite key. */
  predicate DistinctKeys(batch: seq<CryptoRecord>) {
    forall i, j :: 0 <= i < j < |batch| ==> batch[i].KeyOf() != batch[j].KeyOf()
  }

  /** Dropping the first record keeps the keys distinct. */
  lemma DistinctKeysTail(batch: seq<CryptoRecord>)
    requires |batch| > 0 && DistinctKeys(batch)
    ensures DistinctKeys(batch[1..])
  {
    var rest := batch[1..];
    forall i, j | 0 <= i < j < |rest| ensures rest[i].KeyOf() != rest[j].KeyOf() {
      assert rest[i] == batch[i + 1] && rest[j] == batch[j + 1];
    }
  }

  /**
    Applies the batch record by record: a new key is inserted, an existing
    key gets the record's price and market cap.
   */
  function Upsert(store: Store, batch: seq<CryptoRecord>): (r: Store)
    requires DistinctKeys(batch)
    ensures r.Keys == store.Keys + BatchKeys(batch)
    ensures forall i :: 0 <= i < |batch| ==> r[batch[i].KeyOf()] == batch[i].QuoteOf()
    ensures forall k :: k in store && k !in BatchKeys(batch) ==> r[k] == store[k]
    decreases |batch|
  {
    if |batch| == 0 then store
    else
      var head := batch[0];
      var rest := batch[1..];
      DistinctKeysTail(batch);
      var r := Upsert(store[head.KeyOf() := head.QuoteOf()], rest);
      assert BatchKeys(batch) == {head.KeyOf()} + BatchKeys(rest) by {
        forall k | k in BatchKeys(batch) ensures k in {head.KeyOf()} + BatchKeys(rest) {
          var i :| 0 <= i < |batch| && batch[i].KeyOf() == k;
          if i > 0 { assert rest[i - 1] == batch[i]; }
        }
      }
      assert head.KeyOf() !in BatchKeys(rest) by {
        forall i | 0 <= i < |rest| ensures rest[i].KeyOf() != head.KeyOf() {
          assert rest[i] == batch[i + 1];
        }
      }
      assert forall i :: 0 <= i < |batch| ==> r[batch[i].KeyOf()] == batch[i].QuoteOf() by {
        forall i | 0 <= i < |batch| ensures r[batch[i].KeyOf()] == batch[i].QuoteOf() {
          if i > 0 { assert rest[i - 1] == batch[i]; }
        }
      }
      r
  }

  /**
    `load_data`: an empty batch returns 0 without touching the database;
    otherwise the whole batch is applied and its length returned, or nothing
    is applied and the error is raised.
   */
  function Load(store: Store, batch: seq<CryptoRecord>, databaseFails: bool): (r: LoadOutcome)
    ensures |batch| == 0 ==> r == LoadOutcome(store, Success(0))
    ensures r.result.Success? <==> |batch| == 0 || (DistinctKeys(batch) && !databaseFails)
    ensures r.result.Success? ==> r.result.value == |batch|
    ensures r.result.Failure? ==> r.store == store
    ensures |batch| > 0 && !DistinctKeys(batch) ==> r.result == Failure(DuplicateKeyInBatch)
    ensures r.result.Success? ==> r.store.Keys == store.Keys + BatchKeys(batch)
    ensures r.result.Success? ==>
      forall i :: 0 <= i < |batch| ==> batch[i].KeyOf() in r.store && r.store[batch[i].KeyOf()] == batch[i].QuoteOf()
    ensures forall k :: k in store && k !in BatchKeys(batch) ==> k in r.store && r.store[k] == store[k]
  {
    if |batch| == 0 then LoadOutcome(store, Success(0))
    else if !DistinctKeys(batch) then LoadOutcome(store, Failure(DuplicateKeyInBatch))
    else if databaseFails then LoadOutcome(store, Failure(DatabaseFailure))
    else LoadOutcome(Upsert(store, batch), Success(|batch|))
  }

  /** A batch with distinct keys touches exactly as many keys as it has records. */
  lemma {:induction false} BatchKeysCount(batch: seq<CryptoRecord>)
    requires DistinctKeys(batch)
    ensures |BatchKeys(batch)| == |batch|
  {
    if |batch| > 0 {
      var rest := batch[1..];
      DistinctKeysTail(batch);
      BatchKeysCount(rest);
      assert BatchKeys(batch) == {batch[0].KeyOf()} + BatchKeys(rest) by {
        forall k | k in BatchKeys(batch) ensures k in {batch[0].KeyOf()} + BatchKeys(rest) {
          var i :| 0 <= i < |batch| && batch[i].KeyOf() == k;
          if i > 0 { assert rest[i - 1] == batch[i]; }
        }
        forall k | k in BatchKeys(rest) ensures k in BatchKeys(batch) {
          var i :| 0 <= i < |rest| && rest[i].KeyOf() == k;
          assert batch[i + 1] == rest[i];
        }
      }
      assert batch[0].KeyOf() !in BatchKeys(rest) by {
        forall i | 0 <= i < |rest| ensures rest[i].KeyOf() != batch[0].KeyOf() {
          assert rest[i] == batch[i + 1];
        }
      }
    }
  }

  /**
    Loading the same batch twice leaves the store, and hence the row count,
    as loading it once did, and reports the same count.
   */
  lemma LoadIdempotent(store: Store, batch: seq<CryptoRecord>, databaseFails: bool)
    requires Load(store, batch, databaseFails).result.Success?
    ensures
      var once := Load(store, batch, databaseFails);
      var twice := Load(once.store, batch, false);
      twice == once && |twice.store| == |once.store|
  {
    var once := Load(store, batch, databaseFails);
    var twice := Load(once.store, batch, false);
    if |batch| > 0 {
      forall k | k in once.store ensures k in twice.store && twice.store[k] == once.store[k] {
        if k in BatchKeys(batch) {
          var i :| 0 <= i < |batch| && batch[i].KeyOf() == k;
        }
      }
      assert twice.store == once.store;
    }
  }

  /**
    After a successful load the row count is the old count plus the number
    of batch keys that were not yet stored; updated rows add nothing.
   */
  lemma LoadRowCount(store: Store, batch: seq<CryptoRecord>, databaseFails: bool)
    requires Load(store, batch, databaseFails).result.Success?
    ensures |Load(store, batch, databaseFails).store| == |store| + |BatchKeys(batch) - store.Keys|
  {
    var after := Load(store, batch, databaseFails).store;
    var added := BatchKeys(batch) - store.Keys;
    assert after.Keys == store.Keys + added;
    assert store.Keys !! added;
    assert |after.Keys| == |store.Keys| + |added|;
  }

  /** When every batch key is new, a successful load adds exactly one row per record. */
  lemma LoadAllNew(store: Store, batch: seq<CryptoRecord>, databaseFails: bool)
    requires Load(store, batch, databaseFails).result.Success?
    requires BatchKeys(batch) !! store.Keys
    ensures |Load(store, batch, databaseFails).store| == |store| + |batch|
  {
    LoadRowCount(store, batch, databaseFails);
    assert BatchKeys(batch) - store.Keys == BatchKeys(batch);
    if |batch| > 0 {
      BatchKeysCount(batch);
    }
  }

  // ---------------------------------------------------------------------
  // The same upsert on the physical table, where every row carries an id.
  // ---------------------------------------------------------------------

  /** The table after the call, and either the processed count or the raised error. */
  datatype TableOutcome = TableOutcome(table: Table, result: Result<nat, LoadError>)

  /** Position of the row holding key `k`, if there is one. */
  function IndexOfKey(t: Table, k: Key): (r: Option<nat>)
    ensures r.Some? ==> r.value < |t| && t[r.value].KeyOf() == k
    ensures r.None? ==> forall i :: 0 <= i < |t| ==> t[i].KeyOf() != k
  {
    if |t| == 0 then None
    else if t[0].KeyOf() == k then Some(0)
    else
      match IndexOfKey(t[1..], k)
      case None => None
      case Some(j) => Some(j + 1)
  }

  /** Overwriting the quote of one row changes the store at that row's key only. */
  lemma {:induction false} StoreOfSet(t: Table, j: nat, row: Row)
    requires UniqueKeys(t) && j < |t|
    requires row.KeyOf() == t[j].KeyOf()
    ensures UniqueKeys(t[j := row])
    ensures StoreOf(t[j := row]) == StoreOf(t)[row.KeyOf() := row.QuoteOf()]
  {
    var t' := t[j := row];
    assert forall i :: 0 <= i < |t| ==> t'[i].KeyOf() == t[i].KeyOf();
    var n := |t| - 1;
    var init := t[..n];
    if j < n {
      assert t'[..n] == init[j := row];
      assert forall i :: 0 <= i < n ==> init[i] == t[i];
      StoreOfSet(init, j, row);
      var m := StoreOf(init);
      var a := row.KeyOf();
      var b := t[n].KeyOf();
      assert a != b;
      assert m[a := row.QuoteOf()][b := t[n].QuoteOf()] == m[b := t[n].QuoteOf()][a := row.QuoteOf()];
    } else {
      assert t'[..n] == init;
    }
  }

  /** Appending a row adds its key to the store. */
  lemma StoreOfAppend(t: Table, row: Row)
    requires UniqueKeys(t + [row])
    ensures UniqueKeys(t)
    ensures StoreOf(t + [row]) == StoreOf(t)[row.KeyOf() := row.QuoteOf()]
  {
    var t' := t + [row];
    assert t'[..|t'| - 1] == t;
  }

  /** Updating a row's quote in place keeps both constraints and every id and key. */
  lemma UpdateInPlace(t: Table, j: nat, rec: CryptoRecord, nextId: nat)
    requires WellFormed(t) && IdsBelow(t, nextId)
    requires j < |t| && t[j].KeyOf() == rec.KeyOf()
    ensures
      var r := t[j := t[j].(priceUsd := rec.priceUsd, marketCap := rec.marketCap)];
      && WellFormed(r) && IdsBelow(r, nextId + 1)
      && (forall i :: 0 <= i < |t| ==> r[i].id == t[i].id && r[i].KeyOf() == t[i].KeyOf())
      && (forall i :: 0 <= i < |t| ==> AgreeOutside(r[i], t[i], UpdatedOnConflict))
      && (forall i :: 0 <= i < |t| && t[i].KeyOf() != rec.KeyOf() ==> r[i] == t[i])
      && StoreOf(r) == StoreOf(t)[rec.KeyOf() := rec.QuoteOf()]
  {
    var row := t[j].(priceUsd := rec.priceUsd, marketCap := rec.marketCap);
    var r := t[j := row];
    assert forall i :: 0 <= i < |t| ==> r[i].id == t[i].id && r[i].KeyOf() == t[i].KeyOf();
    StoreOfSet(t, j, row);
  }

  /** Appending a row with a new key and a fresh id keeps both constraints. */
  lemma AppendNew(t: Table, rec: CryptoRecord, nextId: nat)
    requires WellFormed(t) && IdsBelow(t, nextId)
    requires forall i :: 0 <= i < |t| ==> t[i].KeyOf() != rec.KeyOf()
    ensures
      var r := t + [RowOf(nextId, rec)];
      && WellFormed(r) && IdsBelow(r, nextId + 1)
      && (forall i :: 0 <= i < |t| ==> r[i] == t[i])
      && StoreOf(r) == StoreOf(t)[rec.KeyOf() := rec.QuoteOf()]
  {
    var row := RowOf(nextId, rec);
    var r := t + [row];
    assert forall i :: 0 <= i < |t| ==> r[i] == t[i];
    assert r[|t|] == row;
    forall i, j | 0 <= i < j < |r| ensures r[i].KeyOf() != r[j].KeyOf() && r[i].id != r[j].id {
      if j < |t| {
        assert r[i] == t[i] && r[j] == t[j];
      } else {
        assert r[i] == t[i];
      }
    }
    StoreOfAppend(t, row);
  }

  /**
    One record of the statement: update the row holding its key in place,
    or append a row with the id `nextId`. An existing row changes only in
    the columns `UpdatedOnConflict` names, and only if it holds the key.
   */
  function UpsertRow(t: Table, rec: CryptoRecord, nextId: nat): (r: Table)
    requires WellFormed(t) && IdsBelow(t, nextId)
    ensures WellFormed(r) && IdsBelow(r, nextId + 1)
    ensures |t| <= |r| <= |t| + 1
    ensures forall i :: 0 <= i < |t| ==> r[i].id == t[i].id && r[i].KeyOf() == t[i].KeyOf()
    ensures forall i :: 0 <= i < |t| ==> AgreeOutside(r[i], t[i], UpdatedOnConflict)
    ensures forall i :: 0 <= i < |t| && t[i].KeyOf() != rec.KeyOf() ==> r[i] == t[i]
    ensures StoreOf(r) == StoreOf(t)[rec.KeyOf() := rec.QuoteOf()]
  {
    match IndexOfKey(t, rec.KeyOf())
    case Some(j) =>
      UpdateInPlace(t, j, rec, nextId);
      t[j := t[j].(priceUsd := rec.priceUsd, marketCap := rec.marketCap)]
    case None =>
      AppendNew(t, rec, nextId);
      t + [RowOf(nextId, rec)]
  }

  /** The batch applied to the table in order; the i-th record is offered the id `nextId + i`. */
  function UpsertRows(t: Table, batch: seq<CryptoRecord>, nextId: nat): (r: Table)
    requires WellFormed(t) && IdsBelow(t, nextId) && DistinctKeys(batch)
    ensures WellFormed(r) && IdsBelow(r, nextId + |batch|)
    ensures |t| <= |r|
    ensures forall i :: 0 <= i < |t| ==> r[i].id == t[i].id && r[i].KeyOf() == t[i].KeyOf()
    ensures forall i :: 0 <= i < |t| ==> AgreeOutside(r[i], t[i], UpdatedOnConflict)
    ensures StoreOf(r) == Upsert(StoreOf(t), batch)
    decreases |batch|
  {
    if |batch| == 0 then t
    else
      var rest := batch[1..];
      DistinctKeysTail(batch);
      var t1 := UpsertRow(t, batch[0], nextId);
      UpsertRows(t1, rest, nextId + 1)
  }

  /**
    `load_data` on the physical table. Primary keys and the unique
    constraint keep holding, rows never change their id or key, and the
    table represents exactly the store `Load` computes.
   */
  function LoadRows(t: Table, batch: seq<CryptoRecord>, databaseFails: bool, nextId: nat): (r: TableOutcome)
    requires WellFormed(t) && IdsBelow(t, nextId)
    ensures WellFormed(r.table)
    ensures r.result == Load(StoreOf(t), batch, databaseFails).result
    ensures StoreOf(r.table) == Load(StoreOf(t), batch, databaseFails).store
    ensures r.result.Failure? ==> r.table == t
    ensures |t| <= |r.table|
    ensures forall i :: 0 <= i < |t| ==> r.table[i].id == t[i].id && r.table[i].KeyOf() == t[i].KeyOf()
  {
    if |batch| == 0 then TableOutcome(t, Success(0))
    else if !DistinctKeys(batch) then TableOutcome(t, Failure(DuplicateKeyInBatch))
    else if databaseFails then TableOutcome(t, Failure(DatabaseFailure))
    else TableOutcome(UpsertRows(t, batch, nextId), Success(|batch|))
  }
}

=== FILE: models.dfy ===
/**
  The persisted entities: one row of `unified_crypto_data` and one `ETLRun`
  audit record, together with the composite key the table is unique on.
 */
module Models {
  import opened Wrappers

  /** An instant in UTC. Only its order matters to the model. */
  type Instant = int

  /** The columns of `unified_crypto_data`. */
  datatype Column = IdCol | SymbolCol | PriceUsdCol | MarketCapCol | TimestampCol | SourceCol

  /** The columns of the unique constraint `uix_symbol_time_source`. */
  const UniqueConstraint: set<Column> := {SymbolCol, TimestampCol, SourceCol}

  /** The conflict target the loader hands to `ON CONFLICT`, in the loader's order. */
  const ConflictTarget: seq<Column> := [SymbolCol, SourceCol, TimestampCol]

  /** The columns the loader overwrites when a key already exists. */
  const UpdatedOnConflict: set<Column> := {PriceUsdCol, MarketCapCol}

  /** Two rows hold the same value in every column outside `cols`. */
  predicate AgreeOutside(a: Row, b: Row, cols: set<Column>) {
    && (IdCol !in cols ==> a.id == b.id)
    && (SymbolCol !in cols ==> a.symbol == b.symbol)
    && (PriceUsdCol !in cols ==> a.priceUsd == b.priceUsd)
    && (MarketCapCol !in cols ==> a.marketCap == b.marketCap)
    && (TimestampCol !in cols ==> a.timestamp == b.timestamp)
    && (SourceCol !in cols ==> a.source == b.source)
  }

  /** The composite key `(symbol, timestamp, source)`. */
  datatype Key = Key(symbol: string, timestamp: Instant, source: string)

  /** The mutable part of a row: what an upsert may overwrite. */
  datatype Quote = Quote(priceUsd: real, marketCap: nat)

  /** A validated, canonical record (the dump of a `UnifiedCryptoData`). */
  datatype CryptoRecord = CryptoRecord(
    symbol: string,
    priceUsd: real,
    marketCap: nat,
    timestamp: Instant,
    source: string)
  {
    function KeyOf(): Key { Key(symbol, timestamp, source) }
    function QuoteOf(): Quote { Quote(priceUsd, marketCap) }
  }

  /** One row of `unified_crypto_data`; `id` is the primary key. */
  datatype Row = Row(
    id: nat,
    symbol: string,
    priceUsd: real,
    marketCap: nat,
    timestamp: Instant,
    source: string)
  {
    function KeyOf(): Key { Key(symbol, timestamp, source) }
    function QuoteOf(): Quote { Quote(priceUsd, marketCap) }
  }

  /** The table as the sequence of its rows. */
  type Table = seq<Row>

  /** The logical store: each composite key with its price and market cap. */
  type Store = map<Key, Quote>

  /** No two rows share a composite key (the unique constraint). */
  predicate UniqueKeys(t: Table) {
    forall i, j :: 0 <= i < j < |t| ==> t[i].KeyOf() != t[j].KeyOf()
  }

  /** No two rows share an id (the primary key). */
  predicate UniqueIds(t: Table) {
    forall i, j :: 0 <= i < j < |t| ==> t[i].id != t[j].id
  }

  /** Every table the database can hold satisfies both constraints. */
  predicate WellFormed(t: Table) {
    UniqueKeys(t) && UniqueIds(t)
  }

  /** Every id in the table is below `n`, so `n` is a fresh id. */
  predicate IdsBelow(t: Table, n: nat) {
    forall i :: 0 <= i < |t| ==> t[i].id < n
  }

  /**
    The logical store a table represents: each row contributes its key with
    its quote.
   */
  function StoreOf(t: Table): Store
    requires UniqueKeys(t)
  {
    if |t| == 0 then map[]
    else
      var init := t[..|t| - 1];
      assert forall i :: 0 <= i < |init| ==> init[i] == t[i];
      StoreOf(init)[t[|t| - 1].KeyOf() := t[|t| - 1].QuoteOf()]
  }

  /** A key outside every row of the table is outside its store. */
  lemma {:induction false} StoreOfKeys(t: Table, k: Key)
    requires UniqueKeys(t)
    requires k in StoreOf(t)
    ensures exists i :: 0 <= i < |t| && t[i].KeyOf() == k
  {
    var n := |t| - 1;
    if t[n].KeyOf() != k {
      var init := t[..n];
      StoreOfKeys(init, k);
      var i :| 0 <= i < n && init[i].KeyOf() == k;
      assert t[i] == init[i];
    }
  }

  /** Each row's key is in the store, mapped to that row's quote. */
  lemma {:induction false} StoreOfRows(t: Table)
    requires UniqueKeys(t)
    ensures forall i :: 0 <= i < |t| ==> t[i].KeyOf() in StoreOf(t) && StoreOf(t)[t[i].KeyOf()] == t[i].QuoteOf()
  {
    if |t| > 0 {
      var n := |t| - 1;
      var init := t[..n];
      StoreOfRows(init);
      forall i | 0 <= i < n ensures t[i].KeyOf() in StoreOf(t) && StoreOf(t)[t[i].KeyOf()] == t[i].QuoteOf() {
        assert init[i] == t[i];
        assert t[i].KeyOf() != t[n].KeyOf();
      }
    }
  }

  /** The store has one entry per row. */
  lemma {:induction false} StoreOfSize(t: Table)
    requires UniqueKeys(t)
    ensures |StoreOf(t)| == |t|
  {
    if |t| > 0 {
      var n := |t| - 1;
      var init := t[..n];
      StoreOfSize(init);
      var prev := StoreOf(init);
      forall k | k in prev ensures k != t[n].KeyOf() {
        StoreOfKeys(init, k);
        var i :| 0 <= i < n && init[i].KeyOf() == k;
        assert init[i] == t[i];
      }
    }
  }

  /**
    On a table whose keys are unique the store maps each row's key to that
    row's quote, holds no other key, and so has one entry per row.
   */
  lemma StoreOfSpec(t: Table)
    requires UniqueKeys(t)
    ensures |StoreOf(t)| == |t|
    ensures forall i :: 0 <= i < |t| ==> t[i].KeyOf() in StoreOf(t) && StoreOf(t)[t[i].KeyOf()] == t[i].QuoteOf()
    ensures forall k :: k in StoreOf(t) ==> exists i :: 0 <= i < |t| && t[i].KeyOf() == k
  {
    forall k | k in StoreOf(t) ensures exists i :: 0 <= i < |t| && t[i].KeyOf() == k {
      StoreOfKeys(t, k);
    }
    StoreOfRows(t);
    StoreOfSize(t);
  }

  /** The lifecycle states of an `ETLRun`. */
  datatype RunStatus = Running | Succeeded | Failed

  /**
    An audit record of one ingestion attempt. `metadata` is `metadata_json`:
    absent, or a map from `<source>_checkpoint` to an ISO-8601 string.
   */
  datatype ETLRun = ETLRun(
    runId: string,
    status: RunStatus,
    endTime: Option<Instant>,
    durationMs: Option<nat>,
    recordsProcessed: Option<nat>,
    errorMessage: Option<string>,
    metadata: Option<map<string, string>>)

  /**
    The loader's conflict target names exactly the unique constraint's
    columns, and the columns it overwrites lie outside that constraint. The
    loader's `UpsertRow` states its effect on existing rows through
    `UpdatedOnConflict`.
   */
  lemma ConflictTargetIsUniqueConstraint()
    ensures |ConflictTarget| == |UniqueConstraint|
    ensures forall c :: c in ConflictTarget <==> c in UniqueConstraint
    ensures UpdatedOnConflict !! UniqueConstraint
  {
  }

  /** The key of a row built from a record is the record's key. */
  function RowOf(id: nat, rec: CryptoRecord): (r: Row)
    ensures r.id == id && r.KeyOf() == rec.KeyOf() && r.QuoteOf() == rec.QuoteOf()
  {
    Row(id, rec.symbol, rec.priceUsd, rec.marketCap, rec.timestamp, rec.source)
  }
}

=== FILE: routes.dfy ===
/**
  The two request handlers that carry logic: `run_etl_job` (extract,
  validate, load) and `get_crypto_data` (filter by symbol, then paginate).
 */
module Routes {
  import opened Wrappers
  import opened Models
  import opened Schema
  import opened Loader

  // ---------------------------------------------------------------------
  // POST /run-etl
  // ---------------------------------------------------------------------

  /** The records that pass validation, in their original order; the rest are dropped. */
  function ValidRecords(raw: seq<RawRecord>, parseTime: TimeParser): (r: seq<CryptoRecord>)
    ensures |r| <= |raw|
    ensures forall x :: x in r <==> exists i :: 0 <= i < |raw| && Normalize(raw[i], parseTime) == Success(x)
  {
    if |raw| == 0 then []
    else
      var rest := ValidRecords(raw[1..], parseTime);
      assert forall i :: 1 <= i < |raw| ==> raw[i] == raw[1..][i - 1];
      match Normalize(raw[0], parseTime)
      case Success(rec) => [rec] + rest
      case Failure(_) => rest
  }

  /** Validation works record by record, so it distributes over concatenation. */
  lemma {:induction false} ValidRecordsConcat(a: seq<RawRecord>, b: seq<RawRecord>, parseTime: TimeParser)
    ensures ValidRecords(a + b, parseTime) == ValidRecords(a, parseTime) + ValidRecords(b, parseTime)
  {
    if |a| == 0 {
      assert a + b == b;
    } else {
      assert (a + b)[0] == a[0];
      assert (a + b)[1..] == a[1..] + b;
      ValidRecordsConcat(a[1..], b, parseTime);
    }
  }

  /** When every record is valid, none is dropped. */
  lemma {:induction false} AllValidKept(raw: seq<RawRecord>, parseTime: TimeParser)
    requires forall i :: 0 <= i < |raw| ==> Acceptable(raw[i], parseTime)
    ensures |ValidRecords(raw, parseTime)| == |raw|
  {
    if |raw| > 0 {
      AllValidKept(raw[1..], parseTime);
    }
  }

  /** A rejected record contributes nothing: the valid records are those of the input without it. */
  lemma DropRejected(before: seq<RawRecord>, bad: RawRecord, after: seq<RawRecord>, parseTime: TimeParser)
    requires Normalize(bad, parseTime).Failure?
    ensures ValidRecords(before + [bad] + after, parseTime) == ValidRecords(before + after, parseTime)
  {
    var withBad := before + [bad];
    assert [bad][1..] == [];
    assert ValidRecords([bad], parseTime) == [];
    ValidRecordsConcat(before, [bad], parseTime);
    assert ValidRecords(withBad, parseTime) == ValidRecords(before, parseTime);
    ValidRecordsConcat(withBad, after, parseTime);
    ValidRecordsConcat(before, after, parseTime);
  }

  /** What `run_etl_job` reports. */
  datatype EtlReport = EtlReport(processed: nat, inserted: nat)

  /** The store after the job, and its report or the loader's error. */
  datatype EtlOutcome = EtlOutcome(store: Store, result: Result<EtlReport, LoadError>)

  /**
    `run_etl_job`, with the two extractors' outputs as parameters: count the
    raw records, keep the valid ones and load them in one batch.
   */
  function RunEtlJob(
    csvData: seq<RawRecord>, apiData: seq<RawRecord>, parseTime: TimeParser,
    store: Store, databaseFails: bool): (r: EtlOutcome)
    ensures r.result.Success? ==> r.result.value.processed == |csvData| + |apiData|
    ensures r.result.Success? ==>
      && r.result.value.inserted == |ValidRecords(csvData + apiData, parseTime)|
      && r.result.value.inserted <= r.result.value.processed
    ensures r.result.Failure? ==> r.store == store
    ensures r.store == Load(store, ValidRecords(csvData + apiData, parseTime), databaseFails).store
    ensures !DistinctKeys(ValidRecords(csvData + apiData, parseTime)) ==> r.result == Failure(DuplicateKeyInBatch)
    ensures r.result.Success? <==>
      var batch := ValidRecords(csvData + apiData, parseTime);
      |batch| == 0 || (DistinctKeys(batch) && !databaseFails)
  {
    var rawData := csvData + apiData;
    var validData := ValidRecords(rawData, parseTime);
    var loaded := Load(store, validData, databaseFails);
    match loaded.result
    case Failure(e) => EtlOutcome(loaded.store, Failure(e))
    case Success(n) => EtlOutcome(loaded.store, Success(EtlReport(|rawData|, n)))
  }

  /**
    A record that fails validation never aborts the job: with it the job
    loads the same records into the same store and only `processed` grows.
   */
  lemma EtlDropsRejected(
    csvBefore: seq<RawRecord>, bad: RawRecord, csvAfter: seq<RawRecord>, apiData: seq<RawRecord>,
    parseTime: TimeParser, store: Store, databaseFails: bool)
    requires Normalize(bad, parseTime).Failure?
    ensures
      var withBad := RunEtlJob(csvBefore + [bad] + csvAfter, apiData, parseTime, store, databaseFails);
      var without := RunEtlJob(csvBefore + csvAfter, apiData, parseTime, store, databaseFails);
      && withBad.store == without.store
      && withBad.result.Success? == without.result.Success?
      && (withBad.result.Success? ==>
            && withBad.result.value.inserted == without.result.value.inserted
            && withBad.result.value.processed == without.result.value.processed + 1)
  {
    assert csvBefore + [bad] + csvAfter + apiData == csvBefore + [bad] + (csvAfter + apiData);
    assert csvBefore + csvAfter + apiData == csvBefore + (csvAfter + apiData);
    DropRejected(csvBefore, bad, csvAfter + apiData, parseTime);
  }

  /** Re-running the job on the same extractor output changes nothing further. */
  lemma EtlRerunIdempotent(
    csvData: seq<RawRecord>, apiData: seq<RawRecord>, parseTime: TimeParser,
    store: Store, databaseFails: bool)
    requires RunEtlJob(csvData, apiData, parseTime, store, databaseFails).result.Success?
    ensures
      var once := RunEtlJob(csvData, apiData, parseTime, store, databaseFails);
      RunEtlJob(csvData, apiData, parseTime, once.store, false) == once
  {
    LoadIdempotent(store, ValidRecords(csvData + apiData, parseTime), databaseFails);
  }

  // ---------------------------------------------------------------------
  // GET /data
  // ---------------------------------------------------------------------

  const DefaultLimit: int := 10
  const MaxLimit: int := 100
  const DefaultOffset: int := 0

  /** The `metadata` object of the response, without the per-request id and latency. */
  datatype PageMetadata = PageMetadata(totalRecordsMatched: nat, pageLimit: nat, pageOffset: nat)

  /** A response of `GET /data`. */
  datatype DataPage = DataPage(metadata: PageMetadata, data: seq<Row>)

  /** A query parameter outside its declared bounds (answered with status 422). */
  datatype QueryError = LimitOutOfRange(limit: int) | NegativeOffset(offset: int)

  /** `if symbol:` — an absent or empty symbol applies no filter; any other is upper-cased. */
  function SymbolFilter(symbol: Option<string>): Option<string> {
    match symbol
    case None => None
    case Some(s) => if s == "" then None else Some(Upper(s))
  }

  /** A query symbol and its upper-case form select the same filter: `?symbol=btc` is `?symbol=BTC`. */
  lemma SymbolFilterCaseInsensitive(s: string)
    ensures SymbolFilter(Some(s)) == SymbolFilter(Some(Upper(s)))
  {
    UpperIdempotent(s);
    assert |Upper(s)| == |s|;
  }

  /** The rows a filter keeps, in table order, each as often as it occurs in the table. */
  function Matching(rows: Table, filter: Option<string>): (r: seq<Row>)
    ensures |r| <= |rows|
    ensures multiset(r) <= multiset(rows)
    ensures forall x :: x in r <==> x in rows && (filter.None? || x.symbol == filter.value)
  {
    if |rows| == 0 then []
    else
      var rest := Matching(rows[1..], filter);
      assert rows == [rows[0]] + rows[1..];
      assert forall x :: x in rows <==> x == rows[0] || x in rows[1..];
      if filter.None? || rows[0].symbol == filter.value then [rows[0]] + rest else rest
  }

  /** A single row matches exactly when it passes the filter. */
  lemma MatchingOne(row: Row, filter: Option<string>)
    ensures Matching([row], filter) == if filter.None? || row.symbol == filter.value then [row] else []
  {
    assert [row][1..] == [];
  }

  /**
    Filtering works row by row, so it distributes over concatenation;
    with `MatchingOne` this fixes the order and multiplicity of every match,
    and so the count `total_records_matched` reports.
   */
  lemma {:induction false} MatchingConcat(a: Table, b: Table, filter: Option<string>)
    ensures Matching(a + b, filter) == Matching(a, filter) + Matching(b, filter)
  {
    if |a| == 0 {
      assert a + b == b;
    } else {
      assert (a + b)[0] == a[0];
      assert (a + b)[1..] == a[1..] + b;
      MatchingConcat(a[1..], b, filter);
    }
  }

  /** Without a filter every row matches, in order. */
  lemma {:induction false} MatchingAll(rows: Table)
    ensures Matching(rows, None) == rows
  {
    if |rows| > 0 {
      MatchingAll(rows[1..]);
    }
  }

  function Min(a: int, b: int): int { if a <= b then a else b }
  function Max(a: int, b: int): int { if a >= b then a else b }

  /** The `limit` query parameter, defaulting to 10. */
  function LimitOf(limit: Option<int>): int {
    match limit
    case Some(l) => l
    case None => DefaultLimit
  }

  /** The `offset` query parameter, defaulting to 0. */
  function OffsetOf(offset: Option<int>): int {
    match offset
    case Some(o) => o
    case None => DefaultOffset
  }

  /** `OFFSET offset LIMIT limit` over a sequence of rows. */
  function Page(matched: seq<Row>, offset: nat, limit: nat): (p: seq<Row>)
    ensures |p| == Min(limit, Max(0, |matched| - offset))
    ensures forall i :: 0 <= i < |p| ==> p[i] == matched[offset + i]
  {
    if offset >= |matched| then [] else matched[offset..Min(offset + limit, |matched|)]
  }

  /**
    `get_crypto_data`: validate `limit` and `offset`, filter by symbol,
    count every match, then return the page `[offset, offset + limit)`.
   */
  function GetCryptoData(rows: Table, limit: Option<int>, offset: Option<int>, symbol: Option<string>)
    : (r: Result<DataPage, QueryError>)
    ensures r.Success? <==> 1 <= LimitOf(limit) <= MaxLimit && OffsetOf(offset) >= 0
    ensures r.Success? ==>
      var matched := Matching(rows, SymbolFilter(symbol));
      && r.value.metadata == PageMetadata(|matched|, LimitOf(limit), OffsetOf(offset))
      && |r.value.data| == Min(LimitOf(limit), Max(0, |matched| - OffsetOf(offset)))
      && forall i :: 0 <= i < |r.value.data| ==> r.value.data[i] == matched[OffsetOf(offset) + i]
    ensures r.Success? && symbol.Some? && symbol.value != "" ==>
      forall i :: 0 <= i < |r.value.data| ==> r.value.data[i].symbol == Upper(symbol.value)
    ensures r.Success? ==> forall i :: 0 <= i < |r.value.data| ==> r.value.data[i] in rows
    ensures r.Success? && (symbol.None? || symbol.value == "") ==> r.value.metadata.totalRecordsMatched == |rows|
  {
    var lim := LimitOf(limit);
    var off := OffsetOf(offset);
    if !(1 <= lim <= MaxLimit) then Failure(LimitOutOfRange(lim))
    else if off < 0 then Failure(NegativeOffset(off))
    else
      var filter := SymbolFilter(symbol);
      assert filter.None? ==> Matching(rows, filter) == rows by {
        MatchingAll(rows);
      }
      assert symbol.Some? && symbol.value != "" ==> filter == Some(Upper(symbol.value));
      var matched := Matching(rows, filter);
      var page := Page(matched, off, lim);
      assert forall i :: 0 <= i < |page| ==> page[i] in matched;
      Success(DataPage(PageMetadata(|matched|, lim, off), page))
  }

  /** A symbol query answers the same as the query for its upper-case form. */
  lemma SymbolQueryCaseInsensitive(rows: Table, limit: Option<int>, offset: Option<int>, s: string)
    ensures GetCryptoData(rows, limit, offset, Some(s)) == GetCryptoData(rows, limit, offset, Some(Upper(s)))
  {
    SymbolFilterCaseInsensitive(s);
  }

  /** A page followed by the page right after it is one longer page. */
  lemma PageConcat(matched: seq<Row>, offset: nat, a: nat, b: nat)
    ensures Page(matched, offset, a) + Page(matched, offset + a, b) == Page(matched, offset, a + b)
  {
    var p := Page(matched, offset, a);
    var q := Page(matched, offset + a, b);
    var pq := Page(matched, offset, a + b);
    assert |pq| == |p| + |q|;
    forall i | 0 <= i < |pq| ensures pq[i] == (p + q)[i] {
      if i >= |p| {
        assert q[i - |p|] == matched[offset + a + (i - |p|)];
      }
    }
  }

  /**
    Two consecutive pages of the same query tile the matched rows: the page
    at `offset` followed by the page at `offset + limit` is the page of twice
    the size at `offset`. All three requests read the same `rows` in the same
    order; the query has no ORDER BY, so the database itself does not
    guarantee that order across requests.
   */
  lemma PagesTile(rows: Table, limit: int, offset: int, symbol: Option<string>)
    requires 1 <= limit && 2 * limit <= MaxLimit && offset >= 0
    ensures
      var first := GetCryptoData(rows, Some(limit), Some(offset), symbol);
      var second := GetCryptoData(rows, Some(limit), Some(offset + limit), symbol);
      var both := GetCryptoData(rows, Some(2 * limit), Some(offset), symbol);
      first.Success? && second.Success? && both.Success? &&
      both.value.data == first.value.data + second.value.data
  {
    var m := Matching(rows, SymbolFilter(symbol));
    assert GetCryptoData(rows, Some(limit), Some(offset), symbol).value.data == Page(m, offset, limit);
    assert GetCryptoData(rows, Some(limit), Some(offset + limit), symbol).value.data == Page(m, offset + limit, limit);
    assert GetCryptoData(rows, Some(2 * limit), Some(offset), symbol).value.data == Page(m, offset, limit + limit);
    PageConcat(m, offset, limit, limit);
  }
}

=== FILE: schema.dfy ===
/**
  Validation and normalisation of one raw record into the canonical
  `UnifiedCryptoData` shape: the symbol is upper-cased, price and market cap
  must be non-negative, the timestamp must parse, and no field may be missing.
 */
module Schema {
  import opened Wrappers
  import opened Models

  /** A raw record as an extractor hands it over; any field may be missing. */
  datatype RawRecord = RawRecord(
    symbol: Option<string>,
    priceUsd: Option<real>,
    marketCap: Option<int>,
    timestamp: Option<string>,
    source: Option<string>)

  /** Why a raw record was rejected. */
  datatype ValidationError =
    | MissingField(field: string)
    | NegativePrice
    | NegativeMarketCap
    | BadTimestamp

  /** Timestamp parsing is left abstract: a string either denotes an instant or not. */
  type TimeParser = string -> Option<Instant>

  predicate IsLower(c: char) { 'a' <= c <= 'z' }

  /** Upper-cases one ASCII letter and leaves every other character alone. */
  function UpperChar(c: char): (u: char)
    ensures !IsLower(u)
    ensures IsLower(c) ==> u as int == c as int - 32
    ensures !IsLower(c) ==> u == c
  {
    if IsLower(c) then (c as int - 32) as char else c
  }

  /** The upper-case form of a string, as `str.upper()` computes it on ASCII text. */
  function Upper(s: string): (r: string)
    ensures |r| == |s|
    ensures forall i :: 0 <= i < |s| ==> !IsLower(r[i])
    ensures forall i :: 0 <= i < |s| && !IsLower(s[i]) ==> r[i] == s[i]
    ensures forall i :: 0 <= i < |s| && IsLower(s[i]) ==> r[i] as int == s[i] as int - 32
  {
    if |s| == 0 then [] else [UpperChar(s[0])] + Upper(s[1..])
  }

  /** A record is acceptable when every field is present and within its bounds. */
  predicate Acceptable(raw: RawRecord, parseTime: TimeParser) {
    && raw.symbol.Some?
    && raw.priceUsd.Some? && raw.priceUsd.value >= 0.0
    && raw.marketCap.Some? && raw.marketCap.value >= 0
    && raw.timestamp.Some? && parseTime(raw.timestamp.value).Some?
    && raw.source.Some?
  }

  /**
    Builds a `UnifiedCryptoData` from a raw record. Fields are checked in
    their declaration order and the first failing one is reported.
   */
  function Normalize(raw: RawRecord, parseTime: TimeParser): (r: Result<CryptoRecord, ValidationError>)
    ensures r.Success? <==> Acceptable(raw, parseTime)
    ensures r.Success? ==>
      && r.value.symbol == Upper(raw.symbol.value)
      && r.value.priceUsd == raw.priceUsd.value
      && r.value.marketCap == raw.marketCap.value
      && Some(r.value.timestamp) == parseTime(raw.timestamp.value)
      && r.value.source == raw.source.value
    ensures raw.symbol.None? ==> r == Failure(MissingField("symbol"))
    ensures raw.symbol.Some? && raw.priceUsd.Some? && raw.priceUsd.value < 0.0 ==> r == Failure(NegativePrice)
    ensures raw.marketCap.Some? && raw.marketCap.value < 0 ==> r.Failure?
  {
    match raw.symbol
    case None => Failure(MissingField("symbol"))
    case Some(symbol) =>
      match raw.priceUsd
      case None => Failure(MissingField("price_usd"))
      case Some(price) =>
        if price < 0.0 then Failure(NegativePrice)
        else
          match raw.marketCap
          case None => Failure(MissingField("market_cap"))
          case Some(cap) =>
            if cap < 0 then Failure(NegativeMarketCap)
            else
              match raw.timestamp
              case None => Failure(MissingField("timestamp"))
              case Some(text) =>
                match parseTime(text)
                case None => Failure(BadTimestamp)
                case Some(instant) =>
                  match raw.source
                  case None => Failure(MissingField("source"))
                  case Some(source) => Success(CryptoRecord(Upper(symbol), price, cap, instant, source))
  }

  /** Upper-casing twice is upper-casing once. */
  lemma {:induction false} UpperIdempotent(s: string)
    ensures Upper(Upper(s)) == Upper(s)
  {
    var u := Upper(s);
    var uu := Upper(u);
    assert |uu| == |u|;
    forall i | 0 <= i < |u|
      ensures uu[i] == u[i]
    {
    }
  }

  /** A string is its own upper-case form exactly when it has no lower-case letter. */
  lemma UpperFixedPoint(s: string)
    ensures Upper(s) == s <==> forall i :: 0 <= i < |s| ==> !IsLower(s[i])
  {
    if forall i :: 0 <= i < |s| ==> !IsLower(s[i]) {
      assert forall i :: 0 <= i < |s| ==> Upper(s)[i] == s[i];
    }
  }

  /** The worked example: "btc" is stored as "BTC". */
  lemma UpperExample()
    ensures Upper("btc") == "BTC"
  {
  }

  /**
    Feeding a normalised record back through validation (its timestamp
    rendered as any string that parses to the same instant) yields the same
    record: normalisation is idempotent.
   */
  lemma NormalizeIdempotent(raw: RawRecord, parseTime: TimeParser, rendered: string)
    requires Normalize(raw, parseTime).Success?
    requires parseTime(rendered) == Some(Normalize(raw, parseTime).value.timestamp)
    ensures
      var rec := Normalize(raw, parseTime).value;
      Normalize(RawRecord(Some(rec.symbol), Some(rec.priceUsd), Some(rec.marketCap as int), Some(rendered), Some(rec.source)), parseTime)
        == Success(rec)
  {
    UpperIdempotent(raw.symbol.value);
  }
}

=== FILE: wrappers.dfy ===
/** Failure-carrying values used in place of Python's `None` and exceptions. */
module Wrappers {

  /** `None` stands for Python's `None`, `Some(v)` for a present value. */
  datatype Option<+T> = None | Some(value: T)

  /** A computation that either produced a value or raised an error. */
  datatype Result<+T, +E> = Success(value: T) | Failure(error: E)
}
